=== FILE: README.md ===
# Health-check classification and reporting, in Dafny

This project models the part of the Ktor health-check example that holds its logic.
The service probes a fixed set of dependencies. It classifies the boolean outcomes
into one of three system states (`Healthy`, `Degraded`, `Unhealthy`), renders that
state as a human-readable message, and derives a status-specific details map for
the JSON response.

Everything is pure once the inputs are given. The probe outcomes, the measured
response time and the recovery estimate (random in the Kotlin code) are all parameters.

Modules, one per source file or helper concern:

- `Statuses` (`system_status.dfy`): the sealed `SystemStatus` hierarchy as a datatype, and `toStatusString`.
- `HealthCheck` (`health_check_service.dfy`): `determineSystemStatus` and `generateStatusMessage`.
  The Kotlin `Map<String, Boolean>` becomes `ServiceMap`: a sequence of (name, outcome) pairs with distinct names, in insertion order.
  That order matters, because the error codes are listed in it.
- `Results` (`health_check_result.dfy`): the `HealthCheckResult` record and `getDetailsMap`.
- `Wire` (`healthcheck_wire.dfy`): the controller's mapping of a status to the response enumeration, and the response object it builds.
- `Decimal`, `Strings`, `Wrappers`: decimal rendering and parsing of integers, ASCII upper-casing, joining and splitting with a separator, and `Option`.
- `Scenarios` (`scenarios.dfy`): the concrete cases the unit tests pin down, as lemmas.

Every rendering operation has a decoder, and a contract or lemma proves that decoding the rendering gives back the input:

- `ParseInt` for `IntToString`
- `Split` for `Join`
- `DecodeMessage` for `GenerateStatusMessage`
- `DecodeDetails` for `DetailsMap`
- `ParseStatusString` for `ToStatusString`
- `FromResponse` for `ToResponse`

So the message, the details map and the response each determine the status.
The parsers are exact as well: they accept only the canonical rendering (no leading zeros, no `-0`).
So `DecodeMessage` accepts a text only if it is the message of the status it reads, and `DecodeDetails` reads only entries whose text is exactly the rendered one.
For the two texts that list error codes, the model proves this when each code is non-empty and contains no comma.
The details map joins codes with a bare comma, so a code containing a comma would make that list ambiguous.
The message joins with `", "`, so it would tolerate some commas, but the model asks for comma-free codes in both.

Classification, as the code does it:

- An empty map is `Healthy`, because `all` holds vacuously.
- The Degraded threshold is `working >= size / 2` with integer division, which is the same as `2 * working + 1 >= size`.
  So an exact tie is Degraded, and so are 1 of 3 working and 0 of 1 working.
- An Unhealthy verdict therefore always has at least two services and at least one failure.
- Criticality is `failed > 0.7 * size`, decided exactly as `10 * failed > 7 * size`.
  Every Unhealthy verdict over at most five services is critical.
  In exact arithmetic, exactly 70% failed is not critical. The Kotlin code multiplies doubles and can disagree at some sizes (see HealthCheck.IsCritical under Left out).

## Model

| member | source | states |
|---|---|---|
| Statuses.ToStatusString | src/main/kotlin/com/example/domain/SystemStatus.kt:26-30 | the tag is non-empty lower-case ASCII and reads back as exactly the status's variant |
| Statuses.ToStatusStringInjective | src/main/kotlin/com/example/domain/SystemStatus.kt:26-30 | two statuses have the same tag if and only if they are the same variant |
| HealthCheck.WorkingCount | src/main/kotlin/com/example/domain/HealthCheckService.kt:42-43 | the working count is at most the map's size, and equals it exactly when every service is up |
| HealthCheck.FailedIndices | src/main/kotlin/com/example/domain/HealthCheckService.kt:59 | the failed positions are strictly increasing, each one a failure, and every failure is among them |
| HealthCheck.CountsPartition | src/main/kotlin/com/example/domain/HealthCheckService.kt:43-44 | working plus failed services add up to the map's size |
| HealthCheck.ErrorCode | src/main/kotlin/com/example/domain/HealthCheckService.kt:60 | a code is `ERR_` plus one character per character of the name: each lower-case ASCII letter becomes its capital, every other character is kept in place, and no lower-case ASCII letter is left after the prefix |
| HealthCheck.ErrorCodes | src/main/kotlin/com/example/domain/HealthCheckService.kt:59-60 | there are exactly `size - working` error codes, each starting with `ERR_` |
| HealthCheck.ErrorCodesOfFailures | src/main/kotlin/com/example/domain/HealthCheckService.kt:59-60 | a text is an error code if and only if it is `ERR_` plus the upper-cased name of some failed service |
| HealthCheck.ErrorCodesInMapOrder | src/main/kotlin/com/example/domain/HealthCheckService.kt:59-60 | the error codes follow the failed services, one each, in map order |
| HealthCheck.DetermineSystemStatus | src/main/kotlin/com/example/domain/HealthCheckService.kt:38-70 | Healthy if and only if all services are up, carrying the response time. Degraded if and only if not all are up and `2*working+1 >= size`; it carries the counts, `size/2 <= working < size`, and the injected estimate, which lies in [5, 30) when present. Otherwise Unhealthy: size at least 2, at least one failure, one error code per failure, criticality exactly when `10*failed > 7*size` |
| HealthCheck.IsCritical | src/main/kotlin/com/example/domain/HealthCheckService.kt:61 | critical exactly when `failed > size * 0.7` holds over exact real numbers |
| HealthCheck.TieIsDegraded | src/main/kotlin/com/example/domain/HealthCheckService.kt:49-56 | exactly half working is Degraded, not Unhealthy |
| HealthCheck.OneOfThreeIsDegraded | src/main/kotlin/com/example/domain/HealthCheckService.kt:49-56 | one of three working is Degraded, because of the integer division |
| HealthCheck.SingleFailureIsDegraded | src/main/kotlin/com/example/domain/HealthCheckService.kt:49-56 | a single service that is down gives Degraded(0, 1) |
| HealthCheck.EmptyIsHealthy | src/main/kotlin/com/example/domain/HealthCheckService.kt:42-48 | an empty map is Healthy with the given response time |
| HealthCheck.AllDownIsCritical | src/main/kotlin/com/example/domain/HealthCheckService.kt:57-68 | with two or more services all down, the verdict is a critical Unhealthy with one code per service |
| HealthCheck.SmallUnhealthyIsCritical | src/main/kotlin/com/example/domain/HealthCheckService.kt:61 | every Unhealthy verdict over at most five services is critical |
| HealthCheck.SeventyPercentIsNotCritical | src/main/kotlin/com/example/domain/HealthCheckService.kt:61 | 7 of 10 failed is Unhealthy but not critical: the comparison is strict |
| HealthCheck.ErrorCodesSeparable | src/main/kotlin/com/example/domain/HealthCheckService.kt:60 | error codes are non-empty, and comma-free whenever the service names are |
| HealthCheck.GenerateStatusMessage | src/main/kotlin/com/example/domain/HealthCheckService.kt:75-95 | the message is non-empty. It opens with "All systems operational (response time: " exactly when the status is Healthy, and with "CRITICAL FAILURE: " exactly when it is a critical Unhealthy. Every other message opens with its counts (a digit or `-`). When the codes are non-empty and comma-free, the message reads back as exactly the status |
| HealthCheck.RecoveryClause | src/main/kotlin/com/example/domain/HealthCheckService.kt:80-82 | the recovery sentence ("Estimated recovery in N minutes" or "Recovery time unknown") reads back as the estimate |
| HealthCheck.HealthyTextDecodes | src/main/kotlin/com/example/domain/HealthCheckService.kt:76-77 | the Healthy text reads back as the same response time |
| HealthCheck.DegradedTextDecodes | src/main/kotlin/com/example/domain/HealthCheckService.kt:79-86 | the Degraded text, "{working}/{total} services operational. " and the recovery sentence, reads back as the same counts and estimate |
| HealthCheck.DownTailAfterCounts | src/main/kotlin/com/example/domain/HealthCheckService.kt:88-94 | after the counts, "services down. Error codes: " and the `, `-joined codes read back as the Unhealthy status, when the codes are non-empty and comma-free |
| HealthCheck.DecodeMessageExact | src/main/kotlin/com/example/domain/HealthCheckService.kt:75-95 | every text the message decoder accepts is the message of the status it reads, so each status has exactly one message |
| HealthCheck.ClassifiedMessageRoundTrip | src/main/kotlin/com/example/domain/HealthCheckService.kt:38-95 | for every service map with comma-free names, the message of the classified status reads back as that status |
| Strings.ToUpper | src/main/kotlin/com/example/domain/HealthCheckService.kt:60 | upper-casing keeps the length, leaves no lower-case ASCII letter, maps each letter to its capital and leaves other characters alone |
| Strings.ToUpperIdempotent | src/main/kotlin/com/example/domain/HealthCheckService.kt:60 | upper-casing an upper-cased name changes nothing |
| Strings.Join | src/main/kotlin/com/example/domain/HealthCheckService.kt:90 | the join of no elements is empty. Otherwise it starts with the first element, and its length is the elements' total length plus one separator between each pair of neighbours |
| Strings.SplitJoin | src/main/kotlin/com/example/domain/HealthCheckService.kt:90 | splitting a joined non-empty list gives the elements back when none contains the separator's first character |
| Decimal.IntToString | src/main/kotlin/com/example/feature/healthCheck/domain/HealthCheckResult.kt:17 | the rendering is non-empty, uses only digits and `-`, and starts with `-` exactly for negative numbers. The digits have no leading zero unless the number is 0, and negatives never render as `-0` |
| Decimal.IntToStringInjective | src/main/kotlin/com/example/feature/healthCheck/domain/HealthCheckResult.kt:17 | two integers render the same if and only if they are equal |
| Decimal.ParseIntToString | src/main/kotlin/com/example/feature/healthCheck/domain/HealthCheckResult.kt:17 | the decimal rendering of an integer parses back to it |
| Decimal.ParseIntCanonical | src/main/kotlin/com/example/feature/healthCheck/domain/HealthCheckResult.kt:17 | the integer parser accepts only renderings: a text that reads as `n` is the rendering of `n` |
| Decimal.Fraction | src/main/kotlin/com/example/feature/healthCheck/domain/HealthCheckResult.kt:22 | the "{a}/{b}" counts text parses back to both counts |
| Decimal.ParseFractionCanonical | src/main/kotlin/com/example/feature/healthCheck/domain/HealthCheckResult.kt:22 | the counts parser accepts only renderings: a text that reads as `(a, b)` is `Fraction(a, b)` |
| Results.BoolToString | src/main/kotlin/com/example/feature/healthCheck/domain/HealthCheckResult.kt:33 | the flag's text is "true" or "false" and reads back as the flag |
| Results.DetailsMap | src/main/kotlin/com/example/feature/healthCheck/domain/HealthCheckResult.kt:15-35 | Healthy: only `responseTimeMs`, parsing back to the time. Degraded: `workingServices` parsing back to the counts, plus `estimatedRecoveryMinutes` if and only if an estimate is present, parsing back to it, so size 2 or 1. Unhealthy: exactly `failedServices` parsing back to the counts, `errorCodes` (joined with a bare comma) and `critical` ("true"/"false" matching the flag) |
| Results.DetailsDependOnlyOnStatus | src/main/kotlin/com/example/feature/healthCheck/domain/HealthCheckResult.kt:15 | two results with the same status have the same details, whatever their message, timestamp and services |
| Results.DetailsKeysIdentifyVariant | src/main/kotlin/com/example/feature/healthCheck/domain/HealthCheckResult.kt:15-35 | the details map is never empty and its key set alone names the variant of the status it came from |
| Results.DetailsRoundTrip | src/main/kotlin/com/example/feature/healthCheck/domain/HealthCheckResult.kt:15-35 | the details map of a status whose error codes are each non-empty and comma-free reads back as that status |
| Results.DecodeDetailsExact | src/main/kotlin/com/example/feature/healthCheck/domain/HealthCheckResult.kt:15-35 | a map that reads back as a status holds every entry of that status's details map with exactly its text |
| Wire.WireValue | src/test/kotlin/com/example/apiSchema/HealthcheckMessageTest.kt:36-40 | each enumeration constant serialises as a non-empty lower-case word that reads back as that constant |
| Wire.ToWireStatus | src/main/kotlin/com/example/application/GetHealthcheckController.kt:28-32 | the controller's enumeration value has the same wire text as `toStatusString` |
| Wire.ToWireStatusInjective | src/main/kotlin/com/example/application/GetHealthcheckController.kt:28-32 | distinct variants map to distinct enumeration values |
| Wire.ToResponse | src/main/kotlin/com/example/application/GetHealthcheckController.kt:25-35 | the response carries the result's message, timestamp and services. Its status is the enumeration value of the result's variant and reads back as that variant. Its details are exactly the result's details map, whose keys name the same variant |
| Wire.ResponseRoundTrip | src/main/kotlin/com/example/application/GetHealthcheckController.kt:25-35 | when every error code is non-empty and contains no comma, reading a response back gives the result it was built from: same status tag, service map, details, message and timestamp |
| Scenarios.AllUpScenario | src/test/kotlin/com/example/feature/healthCheck/domain/HealthCheckServiceTest.kt:12-24 | three services up at 150 ms is Healthy(150) |
| Scenarios.HealthyDetailsScenario | src/test/kotlin/com/example/domain/HealthCheckResultTest.kt:11-27 | the details of Healthy(150) are exactly `{"responseTimeMs": "150"}` |
| Scenarios.CacheDownScenario | src/test/kotlin/com/example/feature/healthCheck/domain/HealthCheckServiceTest.kt:26-39 | database and api up, cache down is Degraded(2, 3) |
| Scenarios.AllDownScenario | src/test/kotlin/com/example/feature/healthCheck/domain/HealthCheckServiceTest.kt:41-55 | all three down is a critical Unhealthy(3, 3) with codes ERR_DATABASE, ERR_CACHE, ERR_API in map order |
| Scenarios.HealthyMessageScenario | src/test/kotlin/com/example/feature/healthCheck/domain/HealthCheckServiceTest.kt:59-66 | Healthy(100) reads "All systems operational (response time: 100ms)" |
| Scenarios.EstimateMessageScenario | src/test/kotlin/com/example/feature/healthCheck/domain/HealthCheckServiceTest.kt:68-74 | Degraded(2, 3, 15) reads "2/3 services operational. Estimated recovery in 15 minutes" |
| Scenarios.UnknownRecoveryMessageScenario | src/test/kotlin/com/example/feature/healthCheck/domain/HealthCheckServiceTest.kt:76-81 | Degraded(1, 3, none) reads "1/3 services operational. Recovery time unknown" |
| Scenarios.CriticalMessageScenario | src/test/kotlin/com/example/feature/healthCheck/domain/HealthCheckServiceTest.kt:84-101 | a critical Unhealthy(3, 3) reads "CRITICAL FAILURE: 3/3 services down. Error codes: ERR_API, ERR_CACHE, ERR_DATABASE" |
| Scenarios.NonCriticalMessageScenario | src/test/kotlin/com/example/feature/healthCheck/domain/HealthCheckServiceTest.kt:92-106 | a non-critical Unhealthy(2, 3) reads "2/3 services down. Error codes: ERR_CACHE, ERR_DATABASE", without the prefix |
| Scenarios.DegradedDetailsScenarios | src/test/kotlin/com/example/domain/HealthCheckResultTest.kt:29-73 | Degraded(2, 3) details are `workingServices = "2/3"`, plus `estimatedRecoveryMinutes = "10"` only when the estimate is 10 |
| Scenarios.UnhealthyDetailsScenario | src/test/kotlin/com/example/domain/HealthCheckResultTest.kt:75-98 | Unhealthy(2, 3) details are `failedServices = "2/3"`, `errorCodes = "ERR_DATABASE,ERR_API"`, `critical = "true"` |
| Scenarios.TwoOfThreeDownScenario | src/main/kotlin/com/example/domain/HealthCheckService.kt:49-56 | two of three down is Degraded(1, 3), not Unhealthy |

## Left out

- The probes `checkDatabaseConnection`, `checkCacheService` and `checkExternalApiService` (HealthCheckService.kt:14-33): each is a delay plus a random draw. Their outcomes are the service map given to the classification.
- The random recovery estimate (HealthCheckService.kt:51): a coin flip, then `Random.nextInt(5, 30)`. It is the `estimate` parameter of `DetermineSystemStatus`, required to lie in [5, 30) when present.
- Concurrent probing, elapsed-time measurement and timestamp capture. These are done by an interactor that is not part of this model; the timestamp is an opaque string field.
- Routing, the controller's HTTP response, error handling and the base controller: HTTP I/O.
- JSON encoding and decoding of the response: generated serialisation code. `FromResponse` reads the response object back, not JSON text.
- HealthCheck.IsCritical: decides `failed > size * 0.7` over exact numbers as `10 * failed > 7 * size`. The Kotlin code multiplies doubles, and 0.7 is not exact in binary. When 70% of the size is a whole number, the rounded product can fall just below it. For example, the double product of 90 and 0.7 rounds to slightly less than 63. So the Kotlin code flags 63 failures out of 90 as critical, although that is exactly 70%. The same happens for 119 of 170 and 126 of 180; the model calls these not critical.
- Strings.ToUpper: only ASCII `a`–`z` are upper-cased. Kotlin's `uppercase()` applies full Unicode case mapping, which can also change a name's length (for example `ß` becomes `SS`).
- Kotlin's 32-bit `Int` and 64-bit `Long` are modelled as unbounded integers. The only arithmetic is on counts no larger than the map's size, so no value wraps around.

=== FILE: decimal.dfy ===
/**
 * Decimal rendering of integers, as Kotlin's `Int.toString()`/`Long.toString()`
 * and string templates produce it, together with the parser that inverts it,
 * and the "{a}/{b}" fraction format the health report uses for counts.
 */
module Decimal {

  import opened Wrappers
  import opened Strings

  predicate IsDigit(c: char) {
    '0' <= c <= '9'
  }

  predicate AllDigits(s: string) {
    forall i | 0 <= i < |s| :: IsDigit(s[i])
  }

  function DigitChar(d: nat): char
    requires d < 10
  {
    ('0' as int + d) as char
  }

  function DigitValue(c: char): nat
    requires IsDigit(c)
  {
    c as int - '0' as int
  }

  /** Base-10 digits of `n`, most significant first, without leading zeros. */
  function NatToString(n: nat): (s: string)
    ensures |s| > 0 && AllDigits(s)
    ensures s[0] == '0' ==> n == 0 && |s| == 1
    decreases n
  {
    if n < 10 then [DigitChar(n)] else NatToString(n / 10) + [DigitChar(n % 10)]
  }

  /** The number a non-empty run of digits denotes. */
  function DigitsValue(s: string): nat
    requires AllDigits(s)
  {
    if |s| == 0 then 0 else DigitsValue(s[..|s| - 1]) * 10 + DigitValue(s[|s| - 1])
  }

  /** A run of digits in canonical form: non-empty, and no leading zero unless it is "0". */
  predicate CanonicalDigits(s: string) {
    |s| > 0 && AllDigits(s) && (s[0] != '0' || |s| == 1)
  }

  /** Reads a natural number back from its canonical rendering only; zero-padded text is rejected. */
  function ParseNat(s: string): Option<nat> {
    if CanonicalDigits(s) then Some(DigitsValue(s)) else None
  }

  /** Reading back the rendering of a natural number gives the number. */
  lemma {:induction false} ParseNatToString(n: nat)
    ensures ParseNat(NatToString(n)) == Some(n)
    decreases n
  {
    var s := NatToString(n);
    if n < 10 {
      assert s[..|s| - 1] == [];
      assert DigitValue(s[0]) == n;
      assert DigitsValue(s[..|s| - 1]) == 0;
      assert DigitsValue(s) == n;
    } else {
      ParseNatToString(n / 10);
      assert s[..|s| - 1] == NatToString(n / 10);
      assert DigitValue(s[|s| - 1]) == n % 10;
    }
  }

  /** A canonical run of digits that does not start with `0` denotes a positive number. */
  lemma {:induction false} DigitsValuePositive(s: string)
    requires |s| > 0 && AllDigits(s) && s[0] != '0'
    ensures DigitsValue(s) >= 1
    decreases |s|
  {
    if |s| > 1 {
      DigitsValuePositive(s[..|s| - 1]);
    }
  }

  /** The parser accepts only renderings: whatever it reads as `v` is the rendering of `v`. */
  lemma {:induction false} ParseNatCanonical(s: string, v: nat)
    requires ParseNat(s) == Some(v)
    ensures s == NatToString(v)
    decreases |s|
  {
    var p := s[..|s| - 1];
    var last := s[|s| - 1];
    assert DigitChar(DigitValue(last)) == last;
    if |s| == 1 {
      assert DigitsValue(p) == 0;
    } else {
      assert p[0] == s[0];
      DigitsValuePositive(p);
      ParseNatCanonical(p, DigitsValue(p));
      assert v / 10 == DigitsValue(p) && v % 10 == DigitValue(last);
      assert s == p + [last];
    }
  }

  /**
   * Kotlin's decimal rendering of a signed integer: a leading `-` for
   * negatives, then the digits of the magnitude without leading zeros.
   */
  function IntToString(n: int): (s: string)
    ensures |s| > 0
    ensures forall i | 0 <= i < |s| :: IsDigit(s[i]) || s[i] == '-'
    ensures s[0] == '-' <==> n < 0
    ensures n >= 0 ==> CanonicalDigits(s)
    ensures n < 0 ==> CanonicalDigits(s[1..]) && s[1] != '0'
  {
    if n < 0 then "-" + NatToString(-n) else NatToString(n)
  }

  function ParseInt(s: string): Option<int> {
    if |s| > 0 && s[0] == '-' then
      match ParseNat(s[1..])
      case Some(v) => if v > 0 then Some(-(v as int)) else None
      case None => None
    else
      match ParseNat(s)
      case Some(v) => Some(v)
      case None => None
  }

  /** Reading back the rendering of an integer gives the integer. */
  lemma ParseIntToString(n: int)
    ensures ParseInt(IntToString(n)) == Some(n)
  {
    if n < 0 {
      ParseNatToString(-n);
      assert IntToString(n)[1..] == NatToString(-n);
    } else {
      ParseNatToString(n);
    }
  }

  /** The parser accepts only renderings, so a number's text is unique. */
  lemma ParseIntCanonical(s: string, n: int)
    requires ParseInt(s) == Some(n)
    ensures s == IntToString(n)
  {
    if |s| > 0 && s[0] == '-' {
      ParseNatCanonical(s[1..], -n);
      assert s == "-" + s[1..];
    } else {
      ParseNatCanonical(s, n);
    }
  }

  /** Zero-padded digits and a signed zero are not renderings, so they do not parse. */
  lemma PaddedTextRejected()
    ensures ParseInt("0150") == None
    ensures ParseInt("-0") == None
  {
    assert "-0"[1..] == "0";
  }

  /** Distinct integers render as distinct texts. */
  lemma IntToStringInjective(a: int, b: int)
    ensures IntToString(a) == IntToString(b) <==> a == b
  {
    ParseIntToString(a);
    ParseIntToString(b);
  }

  /** A rendered integer never contains a character outside digits and `-`. */
  lemma IntToStringAvoids(n: int, c: char)
    requires !IsDigit(c) && c != '-'
    ensures c !in IntToString(n)
  {
  }

  /**
   * "{a}/{b}", the counts format of both the status message and the details
   * map; it reads back as both counts.
   */
  function Fraction(a: int, b: int): (r: string)
    ensures ParseFraction(r) == Some((a, b))
  {
    IntToStringAvoids(a, '/');
    SplitAtConcat(IntToString(a), '/', IntToString(b));
    ParseIntToString(a);
    ParseIntToString(b);
    IntToString(a) + "/" + IntToString(b)
  }

  function ParseFraction(s: string): Option<(int, int)> {
    match SplitAt(s, '/')
    case None => None
    case Some((x, y)) =>
      match (ParseInt(x), ParseInt(y))
      case (Some(a), Some(b)) => Some((a, b))
      case _ => None
  }

  /** The fraction parser accepts only renderings. */
  lemma ParseFractionCanonical(s: string, a: int, b: int)
    requires ParseFraction(s) == Some((a, b))
    ensures s == Fraction(a, b)
  {
    var (x, y) := SplitAt(s, '/').value;
    ParseIntCanonical(x, a);
    ParseIntCanonical(y, b);
  }

  lemma FractionAvoids(a: int, b: int, c: char)
    requires !IsDigit(c) && c != '-' && c != '/'
    ensures c !in Fraction(a, b)
  {
    IntToStringAvoids(a, c);
    IntToStringAvoids(b, c);
  }
}

=== FILE: health_check_result.dfy ===
/**
 * The health-check result handed to the delivery layer, and the status-specific
 * details map derived from it (`getDetailsMap`).
 */
module Results {

  import opened Wrappers
  import opened Strings
  import opened Decimal
  import opened Statuses
  import opened HealthCheck

  /** A report of one aggregation cycle; the timestamp is an opaque ISO-8601 text. */
  datatype HealthCheckResult = HealthCheckResult(
    message: string,
    timestamp: string,
    status: SystemStatus,
    services: ServiceMap)

  const ResponseTimeKey := "responseTimeMs"
  const WorkingServicesKey := "workingServices"
  const EstimatedRecoveryKey := "estimatedRecoveryMinutes"
  const FailedServicesKey := "failedServices"
  const ErrorCodesKey := "errorCodes"
  const CriticalKey := "critical"

  /** The separator of the error codes in the details map: a bare comma. */
  const DetailsCodeSeparator := ","

  /** Kotlin's `Boolean.toString()`; it reads back as the flag. */
  function BoolToString(b: bool): (text: string)
    ensures ParseBool(text) == Some(b)
  {
    if b then "true" else "false"
  }

  function ParseBool(s: string): Option<bool> {
    if s == "true" then Some(true) else if s == "false" then Some(false) else None
  }

  /**
   * `getDetailsMap`: one entry for Healthy, one or two for Degraded (the
   * estimate only when there is one), three for Unhealthy. Only the status is
   * consulted.
   */
  function DetailsMap(result: HealthCheckResult): (details: map<string, string>)
    ensures result.status.Healthy? ==>
      && details.Keys == {ResponseTimeKey}
      && ParseInt(details[ResponseTimeKey]) == Some(result.status.responseTimeMs)
    ensures result.status.Degraded? ==>
      && WorkingServicesKey in details
      && ParseFraction(details[WorkingServicesKey])
         == Some((result.status.workingServicesCount, result.status.totalServicesCount))
      && (EstimatedRecoveryKey in details <==> result.status.estimatedRecoveryTimeMinutes.Some?)
      && (result.status.estimatedRecoveryTimeMinutes.Some? ==>
            ParseInt(details[EstimatedRecoveryKey]) == Some(result.status.estimatedRecoveryTimeMinutes.value))
      && details.Keys <= {WorkingServicesKey, EstimatedRecoveryKey}
      && |details| == (if result.status.estimatedRecoveryTimeMinutes.Some? then 2 else 1)
    ensures result.status.Unhealthy? ==>
      && details.Keys == {FailedServicesKey, ErrorCodesKey, CriticalKey}
      && ParseFraction(details[FailedServicesKey])
         == Some((result.status.failedServicesCount, result.status.totalServicesCount))
      && details[ErrorCodesKey] == Join(result.status.errorCodes, DetailsCodeSeparator)
      && ParseBool(details[CriticalKey]) == Some(result.status.criticalFailure)
  {
    match result.status
    case Healthy(ms) =>
      ParseIntToString(ms);
      map[ResponseTimeKey := IntToString(ms)]
    case Degraded(working, total, estimate) =>
      var info := map[WorkingServicesKey := Fraction(working, total)];
      if estimate.Some? then
        ParseIntToString(estimate.value);
        info[EstimatedRecoveryKey := IntToString(estimate.value)]
      else
        info
    case Unhealthy(failed, total, codes, critical) =>
      map[
        FailedServicesKey := Fraction(failed, total),
        ErrorCodesKey := Join(codes, DetailsCodeSeparator),
        CriticalKey := BoolToString(critical)]
  }

  /** The details map depends on the status alone: message, timestamp and services are never read. */
  lemma DetailsDependOnlyOnStatus(a: HealthCheckResult, b: HealthCheckResult)
    requires a.status == b.status
    ensures DetailsMap(a) == DetailsMap(b)
  {
  }

  /** Which variant a details map belongs to, judged by its keys alone. */
  function KindOfKeys(keys: set<string>): Option<Kind> {
    if ResponseTimeKey in keys then Some(HealthyKind)
    else if WorkingServicesKey in keys then Some(DegradedKind)
    else if FailedServicesKey in keys then Some(UnhealthyKind)
    else None
  }

  /** The key sets of the three variants are non-empty and pairwise disjoint, so the keys name the variant. */
  lemma DetailsKeysIdentifyVariant(result: HealthCheckResult)
    ensures |DetailsMap(result)| > 0
    ensures KindOfKeys(DetailsMap(result).Keys) == Some(KindOf(result.status))
  {
    var keys := DetailsMap(result).Keys;
    match result.status
    case Healthy(_) =>
      assert ResponseTimeKey in keys;
    case Degraded(_, _, _) =>
      assert WorkingServicesKey in keys && ResponseTimeKey !in keys;
    case Unhealthy(_, _, _, _) =>
      assert FailedServicesKey in keys && ResponseTimeKey !in keys && WorkingServicesKey !in keys;
  }

  /** Reads a status back from a details map; `None` when the map is not one `DetailsMap` produces. */
  function DecodeDetails(details: map<string, string>): Option<SystemStatus> {
    if ResponseTimeKey in details then
      match ParseInt(details[ResponseTimeKey])
      case Some(ms) => Some(Healthy(ms))
      case None => None
    else if WorkingServicesKey in details then
      match ParseFraction(details[WorkingServicesKey])
      case None => None
      case Some((working, total)) =>
        if EstimatedRecoveryKey !in details then Some(Degraded(working, total, None))
        else (
          match ParseInt(details[EstimatedRecoveryKey])
          case Some(minutes) => Some(Degraded(working, total, Some(minutes)))
          case None => None)
    else if FailedServicesKey in details && ErrorCodesKey in details && CriticalKey in details then
      match (ParseFraction(details[FailedServicesKey]), ParseBool(details[CriticalKey]))
      case (Some((failed, total)), Some(critical)) =>
        Some(Unhealthy(failed, total, SplitList(details[ErrorCodesKey], DetailsCodeSeparator), critical))
      case _ => None
    else
      None
  }

  /**
   * The details map determines the status: decoding it gives the status back,
   * provided the error codes are non-empty and contain no comma.
   */
  lemma DetailsRoundTrip(result: HealthCheckResult)
    requires CodesRecoverable(result.status)
    ensures DecodeDetails(DetailsMap(result)) == Some(result.status)
  {
    match result.status
    case Healthy(ms) =>
    case Degraded(working, total, estimate) =>
      if estimate.Some? {
        ParseIntToString(estimate.value);
      }
    case Unhealthy(failed, total, codes, critical) =>
      SplitListJoin(codes, DetailsCodeSeparator);
  }

  /**
   * The decoder accepts only rendered values: whenever a map reads back as a
   * status, every entry that status's details map holds is in the map, with
   * exactly the rendered text.
   */
  lemma DecodeDetailsExact(details: map<string, string>, result: HealthCheckResult)
    requires DecodeDetails(details) == Some(result.status)
    ensures forall k | k in DetailsMap(result) :: k in details && details[k] == DetailsMap(result)[k]
  {
    match result.status
    case Healthy(ms) =>
      ParseIntCanonical(details[ResponseTimeKey], ms);
    case Degraded(working, total, estimate) =>
      ParseFractionCanonical(details[WorkingServicesKey], working, total);
      if estimate.Some? {
        ParseIntCanonical(details[EstimatedRecoveryKey], estimate.value);
      }
    case Unhealthy(failed, total, codes, critical) =>
      ParseFractionCanonical(details[FailedServicesKey], failed, total);
      JoinSplitList(details[ErrorCodesKey], DetailsCodeSeparator);
  }
}

=== FILE: health_check_service.dfy ===
/**
 * The health-check domain service: classifying the probe outcomes of the
 * monitored services into a `SystemStatus`, and rendering a status as the
 * human-readable message of the report.
 *
 * The service map is Kotlin's insertion-ordered `Map<String, Boolean>`: a
 * sequence of (name, outcome) pairs with distinct names, so that the order of
 * the error codes is defined. The random recovery estimate is an injected
 * parameter, as are the elapsed time and the probe outcomes themselves.
 */
module HealthCheck {

  import opened Wrappers
  import opened Strings
  import opened Decimal
  import opened Statuses

  predicate DistinctNames(entries: seq<(string, bool)>) {
    forall i, j | 0 <= i < j < |entries| :: entries[i].0 != entries[j].0
  }

  /** Service name to probe outcome, in insertion order. */
  type ServiceMap = entries: seq<(string, bool)> | DistinctNames(entries)

  predicate AllUp(entries: seq<(string, bool)>) {
    forall i | 0 <= i < |entries| :: entries[i].1
  }

  /** How many services answered (`values.count { it }`); all of them exactly when every one is up. */
  function WorkingCount(entries: seq<(string, bool)>): (n: nat)
    ensures n <= |entries|
    ensures n == |entries| <==> AllUp(entries)
  {
    if |entries| == 0 then 0
    else
      var init := entries[..|entries| - 1];
      assert forall i | 0 <= i < |init| :: init[i] == entries[i];
      WorkingCount(init) + (if entries[|entries| - 1].1 then 1 else 0)
  }

  /**
   * The positions of the failed services, in map order: strictly increasing,
   * each one a failure, and every failure among them.
   */
  function FailedIndices(entries: seq<(string, bool)>): (idx: seq<nat>)
    ensures forall k | 0 <= k < |idx| :: idx[k] < |entries| && !entries[idx[k]].1
    ensures forall k, l | 0 <= k < l < |idx| :: idx[k] < idx[l]
    ensures forall i | 0 <= i < |entries| && !entries[i].1 :: i in idx
  {
    if |entries| == 0 then []
    else
      var last := |entries| - 1;
      FailedIndices(entries[..last]) + (if entries[last].1 then [] else [last])
  }

  /** Every service is either working or failed: the two counts add up to the map's size. */
  lemma {:induction false} CountsPartition(entries: seq<(string, bool)>)
    ensures WorkingCount(entries) + |FailedIndices(entries)| == |entries|
  {
    if |entries| > 0 {
      CountsPartition(entries[..|entries| - 1]);
    }
  }

  /** When nothing answers, nothing is counted as working. */
  lemma {:induction false} WorkingCountAllDown(entries: seq<(string, bool)>)
    requires forall i | 0 <= i < |entries| :: !entries[i].1
    ensures WorkingCount(entries) == 0
  {
    if |entries| > 0 {
      WorkingCountAllDown(entries[..|entries| - 1]);
    }
  }

  /**
   * The code reported for a failed service: `ERR_` and its upper-cased name,
   * one character for each character of the name.
   */
  function ErrorCode(name: string): (code: string)
    ensures "ERR_" <= code && |code| == 4 + |name|
    ensures forall i | 4 <= i < |code| :: !IsLowerAscii(code[i])
    ensures forall i | 0 <= i < |name| && !IsLowerAscii(name[i]) :: code[4 + i] == name[i]
    ensures forall i | 0 <= i < |name| && IsLowerAscii(name[i]) :: code[4 + i] as int + 32 == name[i] as int
  {
    "ERR_" + ToUpper(name)
  }

  /**
   * `filterValues { !it }.keys.map { "ERR_" + it.uppercase() }`: one code per
   * failed service, each starting with `ERR_`.
   */
  function ErrorCodes(entries: seq<(string, bool)>): (codes: seq<string>)
    ensures |codes| == |entries| - WorkingCount(entries)
    ensures forall k | 0 <= k < |codes| :: "ERR_" <= codes[k]
  {
    CountsPartition(entries);
    var idx := FailedIndices(entries);
    seq(|idx|, k requires 0 <= k < |idx| => ErrorCode(entries[idx[k]].0))
  }

  /** The error codes are exactly the codes of the failed services. */
  lemma ErrorCodesOfFailures(entries: seq<(string, bool)>)
    ensures forall c :: c in ErrorCodes(entries) <==>
      exists i | 0 <= i < |entries| :: !entries[i].1 && c == ErrorCode(entries[i].0)
  {
    var idx := FailedIndices(entries);
    var codes := ErrorCodes(entries);
    forall c | c in codes
      ensures exists i | 0 <= i < |entries| :: !entries[i].1 && c == ErrorCode(entries[i].0)
    {
      var k :| 0 <= k < |codes| && codes[k] == c;
      assert !entries[idx[k]].1;
    }
    forall i | 0 <= i < |entries| && !entries[i].1
      ensures ErrorCode(entries[i].0) in codes
    {
      var k :| 0 <= k < |idx| && idx[k] == i;
      assert codes[k] == ErrorCode(entries[i].0);
    }
  }

  /**
   * `codes` lists the codes of some of the failed services of `entries`, one
   * each, in the order those services appear in the map.
   */
  ghost predicate CodesOfFailuresInOrder(entries: seq<(string, bool)>, codes: seq<string>) {
    exists idx: seq<nat> | |idx| == |codes| ::
      && (forall k, l | 0 <= k < l < |idx| :: idx[k] < idx[l])
      && (forall k | 0 <= k < |idx| ::
            idx[k] < |entries| && !entries[idx[k]].1 && codes[k] == ErrorCode(entries[idx[k]].0))
  }

  /** The error codes follow the order in which the failed services appear in the map. */
  lemma ErrorCodesInMapOrder(entries: seq<(string, bool)>)
    ensures CodesOfFailuresInOrder(entries, ErrorCodes(entries))
  {
    var idx := FailedIndices(entries);
    assert |idx| == |ErrorCodes(entries)|;
  }

  /** A recovery estimate `Random.nextInt(5, 30)` can produce, or none at all. */
  predicate ValidEstimate(estimate: Option<int>) {
    estimate.Some? ==> 5 <= estimate.value < 30
  }

  /** `failed > total * 0.7`, decided over exact rationals. */
  function IsCritical(failed: int, total: int): (critical: bool)
    ensures critical <==> failed as real > total as real * 0.7
  {
    10 * failed > 7 * total
  }

  /**
   * `determineSystemStatus`: Healthy when every service is up (so also for an
   * empty map); otherwise Degraded when at least `size / 2` (integer division)
   * services work, which is `2 * working + 1 >= size`; otherwise Unhealthy.
   */
  function DetermineSystemStatus(services: ServiceMap, responseTimeMs: int, estimate: Option<int>): (status: SystemStatus)
    requires ValidEstimate(estimate)
    ensures status.Healthy? <==> AllUp(services)
    ensures status.Healthy? ==> status.responseTimeMs == responseTimeMs
    ensures status.Degraded? <==> !AllUp(services) && 2 * WorkingCount(services) + 1 >= |services|
    ensures status.Degraded? ==>
      && status.workingServicesCount == WorkingCount(services)
      && status.totalServicesCount == |services|
      && |services| / 2 <= status.workingServicesCount < |services|
      && status.estimatedRecoveryTimeMinutes == estimate
      && ValidEstimate(status.estimatedRecoveryTimeMinutes)
    ensures status.Unhealthy? <==> 2 * WorkingCount(services) + 2 <= |services|
    ensures status.Unhealthy? ==>
      && status.totalServicesCount == |services| >= 2
      && status.failedServicesCount == |services| - WorkingCount(services) >= 1
      && |status.errorCodes| == status.failedServicesCount
      && status.errorCodes == ErrorCodes(services)
      && status.criticalFailure == IsCritical(status.failedServicesCount, |services|)
  {
    var working := WorkingCount(services);
    var failed := |services| - working;
    if AllUp(services) then
      Healthy(responseTimeMs)
    else if working >= |services| / 2 then
      Degraded(working, |services|, estimate)
    else
      CountsPartition(services);
      Unhealthy(failed, |services|, ErrorCodes(services), IsCritical(failed, |services|))
  }

  /** An exact tie (1 of 2, 2 of 4, ...) is Degraded, not Unhealthy. */
  lemma TieIsDegraded(services: ServiceMap, responseTimeMs: int, estimate: Option<int>)
    requires ValidEstimate(estimate)
    requires |services| > 0 && 2 * WorkingCount(services) == |services|
    ensures DetermineSystemStatus(services, responseTimeMs, estimate)
         == Degraded(|services| / 2, |services|, estimate)
  {
  }

  /** Because of the integer division, one of three working is Degraded. */
  lemma OneOfThreeIsDegraded(services: ServiceMap, responseTimeMs: int, estimate: Option<int>)
    requires ValidEstimate(estimate)
    requires |services| == 3 && WorkingCount(services) == 1
    ensures DetermineSystemStatus(services, responseTimeMs, estimate) == Degraded(1, 3, estimate)
  {
  }

  /** A single service that is down gives Degraded(0, 1), since `1 / 2 == 0`. */
  lemma SingleFailureIsDegraded(name: string, responseTimeMs: int, estimate: Option<int>)
    requires ValidEstimate(estimate)
    ensures DetermineSystemStatus([(name, false)], responseTimeMs, estimate) == Degraded(0, 1, estimate)
  {
    var services: ServiceMap := [(name, false)];
    WorkingCountAllDown(services);
  }

  /** An empty map is Healthy: `all` holds vacuously. */
  lemma EmptyIsHealthy(responseTimeMs: int, estimate: Option<int>)
    requires ValidEstimate(estimate)
    ensures DetermineSystemStatus([], responseTimeMs, estimate) == Healthy(responseTimeMs)
  {
  }

  /**
   * With two or more services and every one of them down, the status is a
   * critical Unhealthy listing one code per service.
   */
  lemma AllDownIsCritical(services: ServiceMap, responseTimeMs: int, estimate: Option<int>)
    requires ValidEstimate(estimate)
    requires |services| >= 2 && forall i | 0 <= i < |services| :: !services[i].1
    ensures var status := DetermineSystemStatus(services, responseTimeMs, estimate);
      && status.Unhealthy?
      && status.failedServicesCount == |services|
      && |status.errorCodes| == |services|
      && status.criticalFailure
  {
    WorkingCountAllDown(services);
  }

  /** Every Unhealthy verdict over at most five services is critical. */
  lemma SmallUnhealthyIsCritical(services: ServiceMap, responseTimeMs: int, estimate: Option<int>)
    requires ValidEstimate(estimate)
    requires |services| <= 5
    ensures var status := DetermineSystemStatus(services, responseTimeMs, estimate);
      status.Unhealthy? ==> status.criticalFailure
  {
  }

  /** Exactly 70% failed is not critical: 7 of 10 down (3 working) stays non-critical. */
  lemma SeventyPercentIsNotCritical(services: ServiceMap, responseTimeMs: int, estimate: Option<int>)
    requires ValidEstimate(estimate)
    requires |services| == 10 && WorkingCount(services) == 3
    ensures var status := DetermineSystemStatus(services, responseTimeMs, estimate);
      status.Unhealthy? && status.failedServicesCount == 7 && !status.criticalFailure
  {
  }

  /** Names free of commas give error codes that can be joined and split back. */
  lemma ErrorCodesSeparable(entries: seq<(string, bool)>)
    requires forall i | 0 <= i < |entries| :: ',' !in entries[i].0
    ensures Separable(ErrorCodes(entries), ',')
  {
    var idx := FailedIndices(entries);
    var codes := ErrorCodes(entries);
    forall k | 0 <= k < |codes|
      ensures |codes[k]| > 0 && ',' !in codes[k]
    {
      var name := entries[idx[k]].0;
      ToUpperKeepsOther(name, ',');
      assert codes[k] == "ERR_" + ToUpper(name);
    }
  }

  // ---------------------------------------------------------------------------
  // Status messages

  const HealthyPrefix := "All systems operational (response time: "
  const HealthySuffix := "ms)"
  const OperationalTail := "services operational. "
  const EstimatePrefix := "Estimated recovery in "
  const EstimateSuffix := " minutes"
  const UnknownRecovery := "Recovery time unknown"
  const CriticalPrefix := "CRITICAL FAILURE: "
  const DownTail := "services down. Error codes: "
  const MessageCodeSeparator := ", "

  /** The last sentence of a Degraded message; it reads back as the estimate. */
  function RecoveryClause(estimate: Option<int>): (clause: string)
    ensures DecodeRecovery(clause) == Some(estimate)
  {
    match estimate
    case Some(minutes) =>
      EstimateDecodes(minutes);
      EstimatePrefix + IntToString(minutes) + EstimateSuffix
    case None => UnknownRecovery
  }

  /** The sentence with an estimate reads back as that estimate. */
  lemma EstimateDecodes(minutes: int)
    ensures DecodeRecovery(EstimatePrefix + IntToString(minutes) + EstimateSuffix) == Some(Some(minutes))
  {
    var digits := IntToString(minutes);
    var clause := EstimatePrefix + digits + EstimateSuffix;
    assert clause[0] == 'E';
    assert clause == EstimatePrefix + (digits + EstimateSuffix);
    RemovePrefixConcat(EstimatePrefix, digits + EstimateSuffix);
    RemoveSuffixConcat(digits, EstimateSuffix);
    ParseIntToString(minutes);
  }

  /**
   * `generateStatusMessage`: total over the three variants. Only a Healthy
   * message opens with the operational prefix, and only a critical Unhealthy
   * one with the critical prefix; every other message opens with its counts.
   * The message determines the status: it reads back as the status whenever
   * the error codes, if any, are non-empty and free of commas.
   */
  function GenerateStatusMessage(status: SystemStatus): (msg: string)
    ensures HealthyPrefix <= msg <==> status.Healthy?
    ensures CriticalPrefix <= msg <==> status.Unhealthy? && status.criticalFailure
    ensures |msg| > 0
    ensures !status.Healthy? && !(CriticalPrefix <= msg) ==> IsDigit(msg[0]) || msg[0] == '-'
    ensures CodesRecoverable(status) ==> DecodeMessage(msg) == Some(status)
  {
    match status
    case Healthy(ms) =>
      var msg := HealthyPrefix + IntToString(ms) + HealthySuffix;
      assert msg[0] == 'A';
      HealthyTextDecodes(ms);
      msg
    case Degraded(working, total, estimate) =>
      var rest := " " + OperationalTail + RecoveryClause(estimate);
      CountsFirst(working, total, rest);
      DegradedTextDecodes(working, total, estimate);
      Fraction(working, total) + rest
    case Unhealthy(failed, total, codes, critical) =>
      var rest := " " + DownTail + Join(codes, MessageCodeSeparator);
      CountsFirst(failed, total, rest);
      DownTailAfterCounts(failed, total, codes, critical);
      if critical then
        var msg := CriticalPrefix + (Fraction(failed, total) + rest);
        assert msg[0] == 'C';
        CriticalTextDecodes(failed, total, codes);
        msg
      else
        PlainTextDecodes(failed, total, codes);
        Fraction(failed, total) + rest
  }

  function DecodeRecovery(clause: string): Option<Option<int>> {
    if clause == UnknownRecovery then Some(None)
    else
      match RemovePrefix(clause, EstimatePrefix)
      case None => None
      case Some(rest) =>
        match RemoveSuffix(rest, EstimateSuffix)
        case None => None
        case Some(digits) =>
          match ParseInt(digits)
          case Some(minutes) => Some(Some(minutes))
          case None => None
  }

  /** Reads back the part of a Healthy message after its prefix. */
  function DecodeResponseTime(rest: string): Option<SystemStatus> {
    match RemoveSuffix(rest, HealthySuffix)
    case None => None
    case Some(digits) =>
      match ParseInt(digits)
      case Some(ms) => Some(Healthy(ms))
      case None => None
  }

  /** Reads back a Degraded or Unhealthy message once its counts are known. */
  function DecodeAfterCounts(a: int, b: int, tail: string, critical: bool): Option<SystemStatus> {
    match RemovePrefix(tail, OperationalTail)
    case Some(clause) =>
      if critical then None
      else (
        match DecodeRecovery(clause)
        case Some(estimate) => Some(Degraded(a, b, estimate))
        case None => None)
    case None =>
      match RemovePrefix(tail, DownTail)
      case Some(joined) => Some(Unhealthy(a, b, SplitList(joined, MessageCodeSeparator), critical))
      case None => None
  }

  /** Reads a status back from its message; `None` for text no status renders as. */
  function DecodeMessage(msg: string): Option<SystemStatus> {
    match RemovePrefix(msg, HealthyPrefix)
    case Some(rest) => DecodeResponseTime(rest)
    case None =>
      var critical := CriticalPrefix <= msg;
      var body := if critical then msg[|CriticalPrefix|..] else msg;
      match SplitAt(body, ' ')
      case None => None
      case Some((counts, tail)) =>
        match ParseFraction(counts)
        case None => None
        case Some((a, b)) => DecodeAfterCounts(a, b, tail, critical)
  }

  /** A status whose error codes, if any, survive being joined with commas. */
  predicate CodesRecoverable(status: SystemStatus) {
    status.Unhealthy? ==> Separable(status.errorCodes, ',')
  }

  /** A message that starts with a count starts with neither fixed prefix. */
  lemma CountsFirst(a: int, b: int, rest: string)
    ensures !(HealthyPrefix <= Fraction(a, b) + rest)
    ensures !(CriticalPrefix <= Fraction(a, b) + rest)
  {
    var s := Fraction(a, b) + rest;
    assert s[0] == IntToString(a)[0];
  }

  /** The text of a Healthy message reads back as the same response time. */
  lemma HealthyTextDecodes(ms: int)
    ensures DecodeMessage(HealthyPrefix + IntToString(ms) + HealthySuffix) == Some(Healthy(ms))
  {
    var msg := HealthyPrefix + IntToString(ms) + HealthySuffix;
    assert msg == HealthyPrefix + (IntToString(ms) + HealthySuffix);
    RemovePrefixConcat(HealthyPrefix, IntToString(ms) + HealthySuffix);
    RemoveSuffixConcat(IntToString(ms), HealthySuffix);
    ParseIntToString(ms);
  }

  /** A message that starts with counts is decoded from the counts on. */
  lemma DecodeCountedMessage(a: int, b: int, tail: string)
    ensures DecodeMessage(Fraction(a, b) + " " + tail) == DecodeAfterCounts(a, b, tail, false)
  {
    var msg := Fraction(a, b) + " " + tail;
    assert msg == Fraction(a, b) + [' '] + tail;
    CountsFirst(a, b, [' '] + tail);
    FractionAvoids(a, b, ' ');
    SplitAtConcat(Fraction(a, b), ' ', tail);
  }

  /** A message that starts with the critical prefix and then counts is decoded from the counts on. */
  lemma DecodeCriticalMessage(a: int, b: int, tail: string)
    ensures DecodeMessage(CriticalPrefix + (Fraction(a, b) + " " + tail)) == DecodeAfterCounts(a, b, tail, true)
  {
    var body := Fraction(a, b) + " " + tail;
    var msg := CriticalPrefix + body;
    assert body == Fraction(a, b) + [' '] + tail;
    assert msg[0] == 'C';
    assert msg[|CriticalPrefix|..] == body;
    FractionAvoids(a, b, ' ');
    SplitAtConcat(Fraction(a, b), ' ', tail);
  }

  /** The text of a Degraded message reads back as the same counts and estimate. */
  lemma DegradedTextDecodes(working: int, total: int, estimate: Option<int>)
    ensures DecodeMessage(Fraction(working, total) + (" " + OperationalTail + RecoveryClause(estimate)))
         == Some(Degraded(working, total, estimate))
  {
    var clause := RecoveryClause(estimate);
    ConcatAssoc(" ", OperationalTail, clause);
    ConcatAssoc(Fraction(working, total), " ", OperationalTail + clause);
    DecodeCountedMessage(working, total, OperationalTail + clause);
    OperationalTailAfterCounts(working, total, estimate);
  }

  lemma OperationalTailAfterCounts(working: int, total: int, estimate: Option<int>)
    ensures DecodeAfterCounts(working, total, OperationalTail + RecoveryClause(estimate), false)
         == Some(Degraded(working, total, estimate))
  {
    RemovePrefixConcat(OperationalTail, RecoveryClause(estimate));
  }

  /** The text of a critical Unhealthy message is decoded from its counts on. */
  lemma CriticalTextDecodes(failed: int, total: int, codes: seq<string>)
    ensures DecodeMessage(CriticalPrefix + (Fraction(failed, total) + (" " + DownTail + Join(codes, MessageCodeSeparator))))
         == DecodeAfterCounts(failed, total, DownTail + Join(codes, MessageCodeSeparator), true)
  {
    var joined := Join(codes, MessageCodeSeparator);
    ConcatAssoc(" ", DownTail, joined);
    ConcatAssoc(Fraction(failed, total), " ", DownTail + joined);
    DecodeCriticalMessage(failed, total, DownTail + joined);
  }

  /** The text of a non-critical Unhealthy message is decoded from its counts on. */
  lemma PlainTextDecodes(failed: int, total: int, codes: seq<string>)
    ensures DecodeMessage(Fraction(failed, total) + (" " + DownTail + Join(codes, MessageCodeSeparator)))
         == DecodeAfterCounts(failed, total, DownTail + Join(codes, MessageCodeSeparator), false)
  {
    var joined := Join(codes, MessageCodeSeparator);
    ConcatAssoc(" ", DownTail, joined);
    ConcatAssoc(Fraction(failed, total), " ", DownTail + joined);
    DecodeCountedMessage(failed, total, DownTail + joined);
  }

  /** After the counts, the down sentence and the `, `-joined codes read back as the Unhealthy status. */
  lemma DownTailAfterCounts(failed: int, total: int, codes: seq<string>, critical: bool)
    ensures Separable(codes, ',') ==>
      DecodeAfterCounts(failed, total, DownTail + Join(codes, MessageCodeSeparator), critical)
      == Some(Unhealthy(failed, total, codes, critical))
  {
    var joined := Join(codes, MessageCodeSeparator);
    var tail := DownTail + joined;
    assert tail[9] != OperationalTail[9];
    RemovePrefixConcat(DownTail, joined);
    if Separable(codes, ',') {
      SplitListJoin(codes, MessageCodeSeparator);
    }
  }

  // The decoder accepts nothing but rendered messages.

  /** A clause the recovery decoder accepts is the rendering of what it reads. */
  lemma DecodeRecoveryExact(clause: string, estimate: Option<int>)
    requires DecodeRecovery(clause) == Some(estimate)
    ensures clause == RecoveryClause(estimate)
  {
    if clause != UnknownRecovery {
      var rest := RemovePrefix(clause, EstimatePrefix).value;
      var digits := RemoveSuffix(rest, EstimateSuffix).value;
      ParseIntCanonical(digits, estimate.value);
      assert clause == EstimatePrefix + (digits + EstimateSuffix);
    }
  }

  /** What follows the counts, once decoded, is exactly the tail the decoded status renders. */
  lemma DecodeAfterCountsExact(a: int, b: int, tail: string, critical: bool, status: SystemStatus)
    requires DecodeAfterCounts(a, b, tail, critical) == Some(status)
    ensures status.Degraded? ==>
      && !critical && status == Degraded(a, b, status.estimatedRecoveryTimeMinutes)
      && tail == OperationalTail + RecoveryClause(status.estimatedRecoveryTimeMinutes)
    ensures status.Unhealthy? ==>
      && status == Unhealthy(a, b, status.errorCodes, critical)
      && tail == DownTail + Join(status.errorCodes, MessageCodeSeparator)
    ensures !status.Healthy?
  {
    match RemovePrefix(tail, OperationalTail)
    case Some(clause) =>
      DecodeRecoveryExact(clause, status.estimatedRecoveryTimeMinutes);
    case None =>
      var joined := RemovePrefix(tail, DownTail).value;
      JoinSplitList(joined, MessageCodeSeparator);
  }

  /** Text split at its first space, whose first part reads as counts, is those counts' text, a space and the rest. */
  lemma CountsTextExact(body: string, counts: string, tail: string, a: int, b: int)
    requires SplitAt(body, ' ') == Some((counts, tail))
    requires ParseFraction(counts) == Some((a, b))
    ensures body == Fraction(a, b) + " " + tail
  {
    ParseFractionCanonical(counts, a, b);
  }

  /**
   * The decoder accepts only rendered messages: any text that reads back as a
   * status is that status's message, so no other spelling of a number, a
   * count or a code list gets through.
   */
  lemma DecodeMessageExact(msg: string, status: SystemStatus)
    requires DecodeMessage(msg) == Some(status)
    ensures msg == GenerateStatusMessage(status)
  {
    match RemovePrefix(msg, HealthyPrefix)
    case Some(rest) =>
      var digits := RemoveSuffix(rest, HealthySuffix).value;
      ParseIntCanonical(digits, status.responseTimeMs);
      assert msg == HealthyPrefix + (digits + HealthySuffix);
    case None =>
      var critical := CriticalPrefix <= msg;
      var body := if critical then msg[|CriticalPrefix|..] else msg;
      var (counts, tail) := SplitAt(body, ' ').value;
      var (a, b) := ParseFraction(counts).value;
      CountsTextExact(body, counts, tail, a, b);
      DecodeAfterCountsExact(a, b, tail, critical, status);
      if status.Degraded? {
        DegradedMessageGrouped(a, b, status.estimatedRecoveryTimeMinutes);
      } else if critical {
        PrefixRest(msg, CriticalPrefix);
        CriticalUnhealthyMessage(a, b, status.errorCodes);
      } else {
        PlainUnhealthyMessage(a, b, status.errorCodes);
      }
  }

  lemma DegradedMessageGrouped(working: int, total: int, estimate: Option<int>)
    ensures GenerateStatusMessage(Degraded(working, total, estimate))
         == Fraction(working, total) + " " + (OperationalTail + RecoveryClause(estimate))
  {
    var clause := RecoveryClause(estimate);
    ConcatAssoc(" ", OperationalTail, clause);
    ConcatAssoc(Fraction(working, total), " ", OperationalTail + clause);
  }

  lemma CriticalUnhealthyMessage(failed: int, total: int, codes: seq<string>)
    ensures GenerateStatusMessage(Unhealthy(failed, total, codes, true))
         == CriticalPrefix + (Fraction(failed, total) + " " + (DownTail + Join(codes, MessageCodeSeparator)))
  {
    var joined := Join(codes, MessageCodeSeparator);
    ConcatAssoc(" ", DownTail, joined);
    ConcatAssoc(Fraction(failed, total), " ", DownTail + joined);
  }

  lemma PlainUnhealthyMessage(failed: int, total: int, codes: seq<string>)
    ensures GenerateStatusMessage(Unhealthy(failed, total, codes, false))
         == Fraction(failed, total) + " " + (DownTail + Join(codes, MessageCodeSeparator))
  {
    var joined := Join(codes, MessageCodeSeparator);
    ConcatAssoc(" ", DownTail, joined);
    ConcatAssoc(Fraction(failed, total), " ", DownTail + joined);
  }

  /**
   * For any service map whose names contain no comma, the message of the
   * classified status reads back as that status.
   */
  lemma ClassifiedMessageRoundTrip(services: ServiceMap, responseTimeMs: int, estimate: Option<int>)
    requires ValidEstimate(estimate)
    requires forall i | 0 <= i < |services| :: ',' !in services[i].0
    ensures var status := DetermineSystemStatus(services, responseTimeMs, estimate);
      DecodeMessage(GenerateStatusMessage(status)) == Some(status)
  {
    ErrorCodesSeparable(services);
  }
}

=== FILE: healthcheck_wire.dfy ===
/**
 * The controller's translation of a health-check result into the response
 * object (`HealthcheckMessage`): the status becomes one of three enum values
 * whose wire value is the lower-case tag, and the details are `DetailsMap`.
 * JSON encoding itself is not modelled; `FromResponse` reads the response
 * object back.
 */
module Wire {

  import opened Wrappers
  import opened Strings
  import opened Statuses
  import opened HealthCheck
  import opened Results

  /** The response schema's status enumeration. */
  datatype WireStatus = WireHealthy | WireDegraded | WireUnhealthy

  /**
   * The value each enumeration constant is serialised as: a non-empty
   * lower-case word that reads back as its constant.
   */
  function WireValue(status: WireStatus): (value: string)
    ensures FromWireValue(value) == Some(status)
    ensures |value| > 0 && forall i | 0 <= i < |value| :: 'a' <= value[i] <= 'z'
  {
    match status
    case WireHealthy => "healthy"
    case WireDegraded => "degraded"
    case WireUnhealthy => "unhealthy"
  }

  /** The enumeration constant a serialised value names; `None` for any other text. */
  function FromWireValue(value: string): Option<WireStatus> {
    if value == "healthy" then Some(WireHealthy)
    else if value == "degraded" then Some(WireDegraded)
    else if value == "unhealthy" then Some(WireUnhealthy)
    else None
  }

  datatype HealthcheckMessage = HealthcheckMessage(
    message: string,
    timestamp: string,
    status: WireStatus,
    services: ServiceMap,
    details: map<string, string>)

  /** The controller's `when (result.status)`; it agrees with `toStatusString`. */
  function ToWireStatus(status: SystemStatus): (w: WireStatus)
    ensures WireValue(w) == ToStatusString(status)
  {
    match status
    case Healthy(_) => WireHealthy
    case Degraded(_, _, _) => WireDegraded
    case Unhealthy(_, _, _, _) => WireUnhealthy
  }

  /** Distinct variants go to distinct enumeration constants. */
  lemma ToWireStatusInjective(a: SystemStatus, b: SystemStatus)
    ensures ToWireStatus(a) == ToWireStatus(b) <==> KindOf(a) == KindOf(b)
  {
    ToStatusStringInjective(a, b);
  }

  /** The response object the controller builds from a result. */
  function ToResponse(result: HealthCheckResult): (response: HealthcheckMessage)
    ensures response.message == result.message
    ensures response.timestamp == result.timestamp
    ensures response.services == result.services
    ensures response.status == ToWireStatus(result.status)
    ensures response.details == DetailsMap(result)
    ensures ParseStatusString(WireValue(response.status)) == Some(KindOf(result.status))
    ensures KindOfKeys(response.details.Keys) == Some(KindOf(result.status))
  {
    DetailsKeysIdentifyVariant(result);
    HealthcheckMessage(result.message, result.timestamp, ToWireStatus(result.status), result.services, DetailsMap(result))
  }

  /**
   * Reads a result back from a response object: the status comes from the
   * details, and must agree with the enumeration value.
   */
  function FromResponse(response: HealthcheckMessage): Option<HealthCheckResult> {
    match DecodeDetails(response.details)
    case None => None
    case Some(status) =>
      if ToWireStatus(status) == response.status then
        Some(HealthCheckResult(response.message, response.timestamp, status, response.services))
      else
        None
  }

  /**
   * A response read back gives the same status tag, service map, details and
   * everything else, provided the error codes are non-empty and contain no comma.
   */
  lemma ResponseRoundTrip(result: HealthCheckResult)
    requires CodesRecoverable(result.status)
    ensures FromResponse(ToResponse(result)) == Some(result)
  {
    DetailsRoundTrip(result);
  }
}

=== FILE: scenarios.dfy ===
/**
 * The concrete cases the repository's unit tests pin down, stated about the
 * model with their exact expected values.
 */
module Scenarios {

  import opened Wrappers
  import opened Strings
  import opened Decimal
  import opened Statuses
  import opened HealthCheck
  import opened Results

  const AllUpServices: ServiceMap := [("database", true), ("cache", true), ("api", true)]
  const CacheDownServices: ServiceMap := [("database", true), ("cache", false), ("api", true)]
  const AllDownServices: ServiceMap := [("database", false), ("cache", false), ("api", false)]

  lemma AllUpScenario(estimate: Option<int>)
    requires ValidEstimate(estimate)
    ensures DetermineSystemStatus(AllUpServices, 150, estimate) == Healthy(150)
  {
  }

  lemma HealthyDetailsScenario()
    ensures DetailsMap(HealthCheckResult("", "", Healthy(150), AllUpServices)) == map["responseTimeMs" := "150"]
  {
    assert IntToString(150) == "150";
  }

  lemma CacheDownScenario(estimate: Option<int>)
    requires ValidEstimate(estimate)
    ensures DetermineSystemStatus(CacheDownServices, 200, estimate) == Degraded(2, 3, estimate)
  {
  }

  /** Upper-casing a lower-case ASCII name. */
  lemma UpperScenario(name: string, upper: string)
    requires |name| == |upper|
    requires forall i | 0 <= i < |name| :: 'a' <= name[i] <= 'z' && upper[i] as int + 32 == name[i] as int
    ensures ErrorCode(name) == "ERR_" + upper
  {
    assert ToUpper(name) == upper;
  }

  lemma AllDownIndices()
    ensures FailedIndices(AllDownServices) == [0, 1, 2]
  {
    var s := AllDownServices;
    assert s[..1][..0] == [];
    assert FailedIndices(s[..1]) == [0];
    assert s[..2][..1] == s[..1];
    assert FailedIndices(s[..2]) == [0, 1];
    assert s[..3] == s;
  }

  lemma AllDownCodes()
    ensures ErrorCodes(AllDownServices) == [ErrorCode("database"), ErrorCode("cache"), ErrorCode("api")]
  {
    AllDownIndices();
  }

  lemma ErrorCodeScenarios()
    ensures ErrorCode("database") == "ERR_DATABASE"
    ensures ErrorCode("cache") == "ERR_CACHE"
    ensures ErrorCode("api") == "ERR_API"
  {
    DatabaseCode();
    CacheCode();
    ApiCode();
  }

  lemma DatabaseCode() ensures ErrorCode("database") == "ERR_DATABASE" {
    UpperScenario("database", "DATABASE");
    assert "ERR_" + "DATABASE" == "ERR_DATABASE";
  }
  lemma CacheCode() ensures ErrorCode("cache") == "ERR_CACHE" {
    UpperScenario("cache", "CACHE");
    assert "ERR_" + "CACHE" == "ERR_CACHE";
  }
  lemma ApiCode() ensures ErrorCode("api") == "ERR_API" {
    UpperScenario("api", "API");
    assert "ERR_" + "API" == "ERR_API";
  }

  lemma AllDownScenario(estimate: Option<int>)
    requires ValidEstimate(estimate)
    ensures DetermineSystemStatus(AllDownServices, 300, estimate)
         == Unhealthy(3, 3, ["ERR_DATABASE", "ERR_CACHE", "ERR_API"], true)
  {
    AllDownIsCritical(AllDownServices, 300, estimate);
    AllDownCodes();
    ErrorCodeScenarios();
  }

  lemma HealthyMessageScenario()
    ensures GenerateStatusMessage(Healthy(100)) == "All systems operational (response time: 100ms)"
  {
    assert IntToString(100) == "100";
    assert HealthyPrefix + "100" == "All systems operational (response time: 100";
  }

  /** A Degraded message, grouped from the left as the expected texts are read. */
  lemma DegradedMessageShape(working: int, total: int, estimate: Option<int>)
    ensures GenerateStatusMessage(Degraded(working, total, estimate))
         == ((Fraction(working, total) + " ") + OperationalTail) + RecoveryClause(estimate)
  {
    var counts := Fraction(working, total);
    var clause := RecoveryClause(estimate);
    ConcatAssoc(counts, " " + OperationalTail, clause);
    ConcatAssoc(counts, " ", OperationalTail);
  }

  /** A critical Unhealthy message, grouped from the left. */
  lemma CriticalMessageShape(failed: int, total: int, codes: seq<string>)
    ensures GenerateStatusMessage(Unhealthy(failed, total, codes, true))
         == (((CriticalPrefix + Fraction(failed, total)) + " ") + DownTail) + Join(codes, MessageCodeSeparator)
  {
    var counts := Fraction(failed, total);
    var joined := Join(codes, MessageCodeSeparator);
    var tail := " " + DownTail + joined;
    ConcatAssoc(CriticalPrefix, counts, tail);
    ConcatAssoc(CriticalPrefix + counts, " " + DownTail, joined);
    ConcatAssoc(CriticalPrefix + counts, " ", DownTail);
  }

  /** An Unhealthy message without the critical prefix, grouped from the left. */
  lemma UnhealthyMessageShape(failed: int, total: int, codes: seq<string>)
    ensures GenerateStatusMessage(Unhealthy(failed, total, codes, false))
         == ((Fraction(failed, total) + " ") + DownTail) + Join(codes, MessageCodeSeparator)
  {
    var counts := Fraction(failed, total);
    var joined := Join(codes, MessageCodeSeparator);
    ConcatAssoc(counts, " " + DownTail, joined);
    ConcatAssoc(counts, " ", DownTail);
  }

  // Steps of the expected texts. Each lemma below states a single
  // concatenation: a rendered piece (a count, a clause, a fixed sentence)
  // appended to the text built so far. The message scenarios after them
  // follow the shapes above and chain these steps, one concatenation at a
  // time, up to the whole expected text of the test.

  lemma TwoOfThreeSpaced() ensures Fraction(2, 3) + " " == "2/3 " {
    assert Fraction(2, 3) == "2/3";
  }
  lemma OneOfThreeSpaced() ensures Fraction(1, 3) + " " == "1/3 " {
    assert Fraction(1, 3) == "1/3";
  }
  lemma ThreeOfThreeSpaced() ensures Fraction(3, 3) + " " == "3/3 " {
    assert Fraction(3, 3) == "3/3";
  }
  lemma FifteenDigits() ensures IntToString(15) == "15" {
  }
  lemma FifteenSentence() ensures EstimatePrefix + "15" + EstimateSuffix == "Estimated recovery in 15 minutes" {
    assert EstimatePrefix + "15" == "Estimated recovery in 15";
  }
  lemma FifteenMinutes() ensures RecoveryClause(Some(15)) == "Estimated recovery in 15 minutes" {
    FifteenDigits();
    FifteenSentence();
  }
  lemma TwoOfThreeOperational() ensures "2/3 " + OperationalTail == "2/3 services operational. " {}
  lemma OneOfThreeOperational() ensures "1/3 " + OperationalTail == "1/3 services operational. " {}
  lemma TwoOfThreeDown() ensures "2/3 " + DownTail == "2/3 services down. Error codes: " {}
  lemma ThreeOfThreeDown() ensures "3/3 " + DownTail == "3/3 services down. Error codes: " {}
  lemma EstimateText()
    ensures "2/3 services operational. " + "Estimated recovery in 15 minutes"
         == "2/3 services operational. Estimated recovery in 15 minutes"
  {}
  lemma UnknownRecoveryText()
    ensures "1/3 services operational. " + UnknownRecovery == "1/3 services operational. Recovery time unknown"
  {}
  lemma CriticalCounts() ensures CriticalPrefix + Fraction(3, 3) == "CRITICAL FAILURE: 3/3" {
    assert Fraction(3, 3) == "3/3";
  }
  lemma CriticalSpaced() ensures "CRITICAL FAILURE: 3/3" + " " == "CRITICAL FAILURE: 3/3 " {}
  lemma CriticalDown()
    ensures "CRITICAL FAILURE: 3/3 " + DownTail == "CRITICAL FAILURE: 3/3 services down. Error codes: "
  {}
  lemma CriticalText()
    ensures "CRITICAL FAILURE: 3/3 services down. Error codes: " + "ERR_API, ERR_CACHE, ERR_DATABASE"
         == "CRITICAL FAILURE: 3/3 services down. Error codes: ERR_API, ERR_CACHE, ERR_DATABASE"
  {}
  lemma TwoCodesText()
    ensures "2/3 services down. Error codes: " + "ERR_CACHE, ERR_DATABASE"
         == "2/3 services down. Error codes: ERR_CACHE, ERR_DATABASE"
  {}

  lemma EstimateMessageScenario()
    ensures GenerateStatusMessage(Degraded(2, 3, Some(15)))
         == "2/3 services operational. Estimated recovery in 15 minutes"
  {
    DegradedMessageShape(2, 3, Some(15));
    TwoOfThreeSpaced();
    TwoOfThreeOperational();
    FifteenMinutes();
    EstimateText();
  }

  lemma UnknownRecoveryMessageScenario()
    ensures GenerateStatusMessage(Degraded(1, 3, None))
         == "1/3 services operational. Recovery time unknown"
  {
    DegradedMessageShape(1, 3, None);
    OneOfThreeSpaced();
    OneOfThreeOperational();
    UnknownRecoveryText();
  }

  /** The codes of the critical test case, joined as the message lists them. */
  lemma CriticalCodesScenario()
    ensures Join(["ERR_API", "ERR_CACHE", "ERR_DATABASE"], MessageCodeSeparator) == "ERR_API, ERR_CACHE, ERR_DATABASE"
  {
    var codes := ["ERR_API", "ERR_CACHE", "ERR_DATABASE"];
    assert codes[1..] == ["ERR_CACHE", "ERR_DATABASE"];
    NonCriticalCodesScenario();
    assert "ERR_API" + MessageCodeSeparator == "ERR_API, ";
    assert "ERR_API, " + "ERR_CACHE, ERR_DATABASE" == "ERR_API, ERR_CACHE, ERR_DATABASE";
  }

  /** The codes of the non-critical test case, joined as the message lists them. */
  lemma NonCriticalCodesScenario()
    ensures Join(["ERR_CACHE", "ERR_DATABASE"], MessageCodeSeparator) == "ERR_CACHE, ERR_DATABASE"
  {
    var codes := ["ERR_CACHE", "ERR_DATABASE"];
    assert codes[1..] == ["ERR_DATABASE"];
    assert "ERR_CACHE" + MessageCodeSeparator == "ERR_CACHE, ";
    assert "ERR_CACHE, " + "ERR_DATABASE" == "ERR_CACHE, ERR_DATABASE";
  }

  lemma CriticalMessageScenario()
    ensures GenerateStatusMessage(Unhealthy(3, 3, ["ERR_API", "ERR_CACHE", "ERR_DATABASE"], true))
         == "CRITICAL FAILURE: 3/3 services down. Error codes: ERR_API, ERR_CACHE, ERR_DATABASE"
  {
    CriticalMessageShape(3, 3, ["ERR_API", "ERR_CACHE", "ERR_DATABASE"]);
    CriticalCounts();
    CriticalSpaced();
    CriticalDown();
    CriticalCodesScenario();
    CriticalText();
  }

  lemma NonCriticalMessageScenario()
    ensures GenerateStatusMessage(Unhealthy(2, 3, ["ERR_CACHE", "ERR_DATABASE"], false))
         == "2/3 services down. Error codes: ERR_CACHE, ERR_DATABASE"
  {
    UnhealthyMessageShape(2, 3, ["ERR_CACHE", "ERR_DATABASE"]);
    TwoOfThreeSpaced();
    TwoOfThreeDown();
    NonCriticalCodesScenario();
    TwoCodesText();
  }

  lemma DegradedDetailsScenarios(services: ServiceMap)
    ensures DetailsMap(HealthCheckResult("", "", Degraded(2, 3, Some(10)), services))
         == map["workingServices" := "2/3", "estimatedRecoveryMinutes" := "10"]
    ensures DetailsMap(HealthCheckResult("", "", Degraded(2, 3, None), services))
         == map["workingServices" := "2/3"]
  {
    DegradedEstimateDetails(services);
    DegradedUnknownDetails(services);
  }

  lemma DegradedEstimateDetails(services: ServiceMap)
    ensures DetailsMap(HealthCheckResult("", "", Degraded(2, 3, Some(10)), services))
         == map["workingServices" := "2/3", "estimatedRecoveryMinutes" := "10"]
  {
    assert IntToString(10) == "10";
    TwoOfThree();
  }

  lemma DegradedUnknownDetails(services: ServiceMap)
    ensures DetailsMap(HealthCheckResult("", "", Degraded(2, 3, None), services)) == map["workingServices" := "2/3"]
  {
    TwoOfThree();
  }

  lemma UnhealthyDetailsScenario(services: ServiceMap)
    ensures DetailsMap(HealthCheckResult("", "", Unhealthy(2, 3, ["ERR_DATABASE", "ERR_API"], true), services))
         == map["failedServices" := "2/3", "errorCodes" := "ERR_DATABASE,ERR_API", "critical" := "true"]
  {
    TwoOfThree();
    DetailsCodesText();
  }

  lemma TwoOfThree() ensures Fraction(2, 3) == "2/3" {
  }

  lemma DetailsCodesText() ensures Join(["ERR_DATABASE", "ERR_API"], DetailsCodeSeparator) == "ERR_DATABASE,ERR_API" {
    var codes := ["ERR_DATABASE", "ERR_API"];
    assert codes[1..] == ["ERR_API"];
    assert "ERR_DATABASE" + DetailsCodeSeparator == "ERR_DATABASE,";
    assert "ERR_DATABASE," + "ERR_API" == "ERR_DATABASE,ERR_API";
  }

  /**
   * Two of three down: one of three working still reaches `3 / 2 == 1`, so the
   * verdict is Degraded, not Unhealthy.
   */
  lemma TwoOfThreeDownScenario(estimate: Option<int>)
    requires ValidEstimate(estimate)
    ensures DetermineSystemStatus([("a", false), ("b", false), ("c", true)], 0, estimate)
         == Degraded(1, 3, estimate)
  {
    var s: ServiceMap := [("a", false), ("b", false), ("c", true)];
    assert s[..2][..1] == s[..1] && s[..1][..0] == [] && s[..3] == s;
    assert WorkingCount(s) == 1;
  }
}

=== FILE: strings.dfy ===
/**
 * Text helpers the health report needs: ASCII upper-casing (for error codes),
 * joining with a separator (Kotlin's `joinToString`) and its inverse.
 */
module Strings {

  import opened Wrappers

  predicate IsLowerAscii(c: char) {
    'a' <= c <= 'z'
  }

  /** ASCII upper-casing of one character; anything else is left alone. */
  function UpperChar(c: char): char {
    if IsLowerAscii(c) then (c as int - 32) as char else c
  }

  /**
   * ASCII model of Kotlin's `String.uppercase()`: same length, every lower-case
   * letter replaced by its capital, every other character unchanged.
   */
  function ToUpper(s: string): (r: string)
    ensures |r| == |s|
    ensures forall i | 0 <= i < |r| :: !IsLowerAscii(r[i])
    ensures forall i | 0 <= i < |s| && !IsLowerAscii(s[i]) :: r[i] == s[i]
    ensures forall i | 0 <= i < |s| && IsLowerAscii(s[i]) :: 'A' <= r[i] <= 'Z' && r[i] as int + 32 == s[i] as int
  {
    seq(|s|, i requires 0 <= i < |s| => UpperChar(s[i]))
  }

  /** Upper-casing twice is upper-casing once. */
  lemma ToUpperIdempotent(s: string)
    ensures ToUpper(ToUpper(s)) == ToUpper(s)
  {
  }

  /** Upper-casing neither introduces nor removes a character that is not a lower-case letter. */
  lemma ToUpperKeepsOther(s: string, c: char)
    requires !IsLowerAscii(c) && !('A' <= c <= 'Z')
    ensures c in ToUpper(s) <==> c in s
  {
    var r := ToUpper(s);
    if c in r {
      var i :| 0 <= i < |r| && r[i] == c;
      assert s[i] == c;
    }
    if c in s {
      var i :| 0 <= i < |s| && s[i] == c;
      assert r[i] == c;
    }
  }

  /** The combined length of the elements of `xs`. */
  function TotalLength(xs: seq<string>): nat {
    if |xs| == 0 then 0 else |xs[0]| + TotalLength(xs[1..])
  }

  /**
   * Kotlin's `joinToString(sep)`: the elements in order, `sep` between
   * neighbours, so one copy of `sep` fewer than there are elements.
   */
  function Join(xs: seq<string>, sep: string): (r: string)
    ensures |xs| == 0 ==> r == ""
    ensures |xs| > 0 ==> xs[0] <= r
    ensures |xs| > 0 ==> |r| + |sep| == TotalLength(xs) + |xs| * |sep|
    decreases |xs|
  {
    if |xs| == 0 then ""
    else if |xs| == 1 then xs[0]
    else xs[0] + sep + Join(xs[1..], sep)
  }

  lemma ConcatAssoc(a: string, b: string, c: string)
    ensures a + (b + c) == (a + b) + c
  {
  }

  /** The position of the first `c` in `s`, or `|s|` when there is none. */
  function IndexOf(s: string, c: char): (i: nat)
    ensures i <= |s|
    ensures forall k | 0 <= k < i :: s[k] != c
    ensures i < |s| ==> s[i] == c
  {
    if |s| == 0 then 0
    else if s[0] == c then 0
    else 1 + IndexOf(s[1..], c)
  }

  lemma IndexOfAbsent(s: string, c: char)
    requires c !in s
    ensures IndexOf(s, c) == |s|
  {
  }

  lemma IndexOfConcat(a: string, b: string, c: char)
    requires c !in a && |b| > 0 && b[0] == c
    ensures IndexOf(a + b, c) == |a|
  {
    var s := a + b;
    assert s[|a|] == c;
    assert forall k | 0 <= k < |a| :: s[k] == a[k] && s[k] != c;
  }

  /**
   * Splits `s` at every occurrence of `sep`, looking for `sep` where its first
   * character next occurs. The inverse of `Join` on elements that do not contain
   * that first character (see SplitJoin).
   */
  function Split(s: string, sep: string): (parts: seq<string>)
    requires |sep| > 0
    ensures |parts| > 0
    decreases |s|
  {
    var i := IndexOf(s, sep[0]);
    if i + |sep| <= |s| && s[i..i + |sep|] == sep then [s[..i]] + Split(s[i + |sep|..], sep)
    else [s]
  }

  /** Splitting a join gives back the elements, provided none contains the separator's first character. */
  lemma {:induction false} SplitJoin(xs: seq<string>, sep: string)
    requires |xs| > 0 && |sep| > 0
    requires forall k | 0 <= k < |xs| :: sep[0] !in xs[k]
    ensures Split(Join(xs, sep), sep) == xs
    decreases |xs|
  {
    if |xs| == 1 {
      IndexOfAbsent(xs[0], sep[0]);
    } else {
      SplitCons(xs[0], sep, Join(xs[1..], sep));
      SplitJoin(xs[1..], sep);
    }
  }

  /** Splitting text that starts with an element and a separator peels off that element. */
  lemma SplitCons(a: string, sep: string, rest: string)
    requires |sep| > 0 && sep[0] !in a
    ensures Split(a + sep + rest, sep) == [a] + Split(rest, sep)
  {
    var s := a + sep + rest;
    assert s == a + (sep + rest);
    IndexOfConcat(a, sep + rest, sep[0]);
    var i := |a|;
    assert s[i..i + |sep|] == sep;
    assert s[..i] == a;
    assert s[i + |sep|..] == rest;
  }

  /**
   * Reads back a joined list: the empty text is the empty list. The inverse of
   * `Join` on lists of non-empty elements free of the separator's first character.
   */
  function SplitList(s: string, sep: string): seq<string>
    requires |sep| > 0
  {
    if s == "" then [] else Split(s, sep)
  }

  /** Joining the parts of any text gives the text back. */
  lemma {:induction false} JoinSplit(s: string, sep: string)
    requires |sep| > 0
    ensures Join(Split(s, sep), sep) == s
    decreases |s|
  {
    var i := IndexOf(s, sep[0]);
    if i + |sep| <= |s| && s[i..i + |sep|] == sep {
      var before, rest := s[..i], s[i + |sep|..];
      assert forall k | 0 <= k < |before| :: before[k] == s[k];
      SliceAround(s, sep, i);
      SplitCons(before, sep, rest);
      JoinSplit(rest, sep);
      JoinCons(before, sep, Split(rest, sep));
    }
  }

  /** A text is what comes before position `i`, the separator found there, and the rest. */
  lemma SliceAround(s: string, sep: string, i: nat)
    requires i + |sep| <= |s| && s[i..i + |sep|] == sep
    ensures s == s[..i] + sep + s[i + |sep|..]
  {
    assert s[..i] + s[i..i + |sep|] == s[..i + |sep|];
    assert s[..i + |sep|] + s[i + |sep|..] == s;
  }

  /** A text that starts with `p` is `p` followed by the rest. */
  lemma PrefixRest(s: string, p: string)
    requires p <= s
    ensures s == p + s[|p|..]
  {
    assert s[..|p|] == p;
    assert s[..|p|] + s[|p|..] == s;
  }

  /** Joining an element in front of a non-empty list puts one separator between them. */
  lemma JoinCons(x: string, sep: string, xs: seq<string>)
    requires |xs| > 0
    ensures Join([x] + xs, sep) == x + sep + Join(xs, sep)
  {
    assert ([x] + xs)[1..] == xs;
  }

  /** `SplitList` loses nothing: joining its result gives the text back. */
  lemma JoinSplitList(s: string, sep: string)
    requires |sep| > 0
    ensures Join(SplitList(s, sep), sep) == s
  {
    if s != "" {
      JoinSplit(s, sep);
    }
  }

  predicate Separable(xs: seq<string>, c: char) {
    forall k | 0 <= k < |xs| :: |xs[k]| > 0 && c !in xs[k]
  }

  lemma SplitListJoin(xs: seq<string>, sep: string)
    requires |sep| > 0 && Separable(xs, sep[0])
    ensures SplitList(Join(xs, sep), sep) == xs
  {
    if |xs| > 0 {
      SplitJoin(xs, sep);
    }
  }

  /** `s` with the prefix `p` removed, or `None` when `s` does not start with `p`. */
  function RemovePrefix(s: string, p: string): (r: Option<string>)
    ensures r.Some? ==> p + r.value == s
    ensures r.None? ==> !(p <= s)
  {
    if p <= s then Some(s[|p|..]) else None
  }

  /** `s` with the suffix `q` removed, or `None` when `s` does not end with `q`. */
  function RemoveSuffix(s: string, q: string): (r: Option<string>)
    ensures r.Some? ==> r.value + q == s
    ensures r.None? ==> !(|q| <= |s| && s[|s| - |q|..] == q)
  {
    if |q| <= |s| && s[|s| - |q|..] == q then Some(s[..|s| - |q|]) else None
  }

  lemma RemovePrefixConcat(p: string, t: string)
    ensures RemovePrefix(p + t, p) == Some(t)
  {
    assert (p + t)[..|p|] == p;
    assert (p + t)[|p|..] == t;
  }

  lemma RemoveSuffixConcat(t: string, q: string)
    ensures RemoveSuffix(t + q, q) == Some(t)
  {
    assert (t + q)[|t|..] == q;
    assert (t + q)[..|t|] == t;
  }

  /** The text before and after the first `c`, or `None` when `c` does not occur. */
  function SplitAt(s: string, c: char): (r: Option<(string, string)>)
    ensures r.Some? ==> r.value.0 + [c] + r.value.1 == s && c !in r.value.0
    ensures r.None? ==> c !in s
  {
    var i := IndexOf(s, c);
    if i < |s| then
      assert s == s[..i] + [c] + s[i + 1..];
      Some((s[..i], s[i + 1..]))
    else
      None
  }

  lemma SplitAtConcat(a: string, c: char, b: string)
    requires c !in a
    ensures SplitAt(a + [c] + b, c) == Some((a, b))
  {
    var s := a + [c] + b;
    assert s == a + ([c] + b);
    IndexOfConcat(a, [c] + b, c);
    assert s[..|a|] == a;
    assert s[|a| + 1..] == b;
  }
}

=== FILE: system_status.dfy ===
/**
 * The closed (sealed) hierarchy of overall system states and its lower-case
 * wire tag. Kotlin's `Long` and `Int` fields are modelled as unbounded `int`s:
 * nothing in the model does arithmetic on them that could overflow.
 */
module Statuses {

  import opened Wrappers

  datatype SystemStatus =
    | Healthy(responseTimeMs: int)
    | Degraded(workingServicesCount: int, totalServicesCount: int, estimatedRecoveryTimeMinutes: Option<int>)
    | Unhealthy(failedServicesCount: int, totalServicesCount: int, errorCodes: seq<string>, criticalFailure: bool)

  /** Which of the three variants a status is, without its payload. */
  datatype Kind = HealthyKind | DegradedKind | UnhealthyKind

  function KindOf(status: SystemStatus): Kind {
    match status
    case Healthy(_) => HealthyKind
    case Degraded(_, _, _) => DegradedKind
    case Unhealthy(_, _, _, _) => UnhealthyKind
  }

  /** The tag a variant name reads back as; `None` for any other text. */
  function ParseStatusString(tag: string): Option<Kind> {
    if tag == "healthy" then Some(HealthyKind)
    else if tag == "degraded" then Some(DegradedKind)
    else if tag == "unhealthy" then Some(UnhealthyKind)
    else None
  }

  /** The lower-case tag of a status; it reads back as the status's variant. */
  function ToStatusString(status: SystemStatus): (tag: string)
    ensures ParseStatusString(tag) == Some(KindOf(status))
    ensures |tag| > 0 && forall i | 0 <= i < |tag| :: 'a' <= tag[i] <= 'z'
  {
    match status
    case Healthy(_) => "healthy"
    case Degraded(_, _, _) => "degraded"
    case Unhealthy(_, _, _, _) => "unhealthy"
  }

  /** Two statuses share a tag exactly when they are the same variant. */
  lemma ToStatusStringInjective(a: SystemStatus, b: SystemStatus)
    ensures ToStatusString(a) == ToStatusString(b) <==> KindOf(a) == KindOf(b)
  {
  }
}

=== FILE: wrappers.dfy ===
/** The optional value used for Kotlin's nullable types and for failed parses. */
module Wrappers {

  datatype Option<+T> = None | Some(value: T)
}
